=== FILE: README.md ===
# Chessagon core in Dafny

This project models the shared core of Chessagon, found in `Chessagon.Common`.

- **Piece.** A flags enum: six kind bits (Pawn, Bishop, Knight, Rook, Queen, King) and two colour bits (Black, White). Zero is the empty square.
- **Piece extensions.** HasColor, CharToPiece, ToChar, OppositeColor and IsSliding.
- **CastleStatus.** A flags enum.
- **Move.** An immutable value with `Equals`.
- **ChessBoard.** A board of 64 squares with a side to move. It has two operations:
  - `Move` refuses an empty source, or a destination that shares a colour flag with the source. Otherwise it moves the piece and passes the turn.
  - `FromFEN` reads the piece placement and side-to-move fields of a FEN string.

## Modules

| file | module | contents |
|---|---|---|
| `wrappers.dfy` | `Wrappers` | `Option`, `Result`. Each kind of exception the source throws is a constructor of `Exception`. |
| `ascii.dfy` | `Ascii` | Letter and digit classes, case mapping, digit value. |
| `pieces.dfy` | `Pieces` | `Enums.cs`: the piece flags (`bv8`) and the `PieceExtensions` methods. |
| `moves.dfy` | `Moves` | `Move.cs`. |
| `board.dfy` | `Boards` | `Boards.cs`: the enums, the square array, the constructor, the indexer and `Move` (as `ApplyMove`). |
| `fen.dfy` | `Fen` | `Boards.cs`: `FromFEN`, the private `CharToPiece(string)`, and `String.Split` with the empty fields it keeps. |

### How the model works

- **Exceptions.** A C# exception becomes a `Failure` of `Result`.
  - An array index out of range becomes `IndexOutOfRange`.
  - So does the index into the fields `fen.Split(' ')` returns.
  - The three `throw new Exception` sites become `PieceIsEmpty`, `PieceIsOnlyColour` and `PieceHasNoColour`.
- **Mutation.** The board is an immutable datatype. `ApplyMove` returns whether the move was applied, together with the board afterwards.
- **Order of failures.** `ApplyMove` fails in the order the source evaluates its operands:
  1. A `from` outside 0..63 fails.
  2. An empty source is refused, even when `to` is out of range.
  3. Only after that does a `to` outside 0..63 fail.
- **FEN reference definition.** `FromFEN` is specified against `Fen.Expand`, which gives the squares a rank's text covers:
  - a letter gives `Some(piece)`;
  - a digit `d` gives `d` untouched squares;
  - any other character is skipped, as the source's `TryParse` branch does.
- **Board orientation.** The model follows what the code does.
  - Standard FEN lists rank 8 first. `FromFEN` writes the text's first rank onto squares 0..7 (`rank * 8 + file`, with `rank` starting at 0).
  - The private `ChessBoard.CharToPiece` treats upper-case letters as Black. `PieceExtensions.CharToPiece` and FEN itself treat them as White.
  - Together, these two inversions turn the standard start position into a board with White's pieces on squares 0..15 and Black's on 48..63. White's king is on square 4. `Fen.StartPosition` proves this layout square by square for the start text that SquareBoard/SquareBoard.cs:42 loads. It then replays the two pawn moves of Tests/Square/Pawn.cs (9→17 and 9→25) on that board. Those tests call `ChessBoard.FromFen`, which is not in Boards.cs. `Move` itself (Boards.cs:91-93) checks only that the source is occupied and that the two squares share no colour flag, so both moves would be applied whatever the pawns' colour.
- **Malformed placement text.** A letter that lands on square 64 or beyond raises. Any other malformed text is accepted:
  - a rank longer than eight squares spills into the next row;
  - missing ranks are left empty;
  - ranks past the eighth, such as the empty one a trailing `/` adds, are accepted as long as they hold no letter.

  The model follows this exactly, up to 32-bit wrap-around: `Fen.PlaceRanks` fails exactly when `Fen.RanksOverflow` holds.

## Model

| member | source | states |
|---|---|---|
| Pieces.HasColor | Chessagon.Common/Enums.cs:19-24 | Two pieces have the same colour exactly when they agree on the Black flag and on the White flag. |
| Pieces.HasColorIsEquivalence | Chessagon.Common/Enums.cs:21-24 | HasColor is reflexive, symmetric and transitive. |
| Pieces.HasColorIgnoresKind | Chessagon.Common/Enums.cs:21-24 | Adding kind flags to either piece never changes HasColor. HasColor depends only on the colour bits. |
| Pieces.HasColorExamples | Tests/TestHasColor.cs:13-70 | The white bishop has the colour of a white pawn, a white bishop and bare White. It does not have the colour of a black pawn, a black bishop, bare Black or the empty piece. |
| Pieces.KindOfLetter | Chessagon.Common/Enums.cs:30-39 | A lower-case letter names a kind exactly when it is one of p r n b q k. The result is then one of the six kind flags. |
| Pieces.CharToPiece | Chessagon.Common/Enums.cs:26-40 | The result is non-empty exactly for the twelve piece letters. A non-empty result is a well-formed piece whose kind is the letter's. It is Black exactly when the letter is lower case and White exactly when it is upper case. |
| Pieces.KindLetter | Chessagon.Common/Enums.cs:52-57 | The letter chosen is upper case and names the highest kind flag the piece carries. It names the pawn when no kind flag is set. |
| Pieces.HighestKindCases | Chessagon.Common/Enums.cs:52-57 | The kind flags, tested from King down: the first one present is the highest kind. If none is present, the highest kind is the pawn. |
| Pieces.ToChar | Chessagon.Common/Enums.cs:42-60 | It fails with PieceIsEmpty on 0 and with PieceIsOnlyColour on a bare colour. It succeeds on every other value. On success the letter is a FEN piece letter for the highest kind present. It is lower case exactly when the piece's colour bits are Black alone. |
| Pieces.LetterRoundTrip | Chessagon.Common/Enums.cs:26-60 | Every FEN piece letter survives CharToPiece followed by ToChar unchanged. |
| Pieces.KindOfLetterInjective | Chessagon.Common/Enums.cs:30-39 | No two FEN piece letters name the same kind. |
| Pieces.PieceRoundTrip | Chessagon.Common/Enums.cs:26-60 | Every well-formed piece (one kind flag, one colour flag) survives ToChar followed by CharToPiece unchanged. |
| Pieces.OppositeColor | Chessagon.Common/Enums.cs:62-68 | It fails with PieceHasNoColour exactly when neither colour flag is set. Otherwise the result is a single colour, and it is White exactly when the Black flag is set. |
| Pieces.OppositeColorInvolution | Chessagon.Common/Enums.cs:62-68 | On a one-colour piece the result has a different colour. Applying OppositeColor twice gives back the piece's own colour. |
| Pieces.IsSliding | Chessagon.Common/Enums.cs:70-73 | A piece slides exactly when it carries a Rook, Bishop or Queen bit. |
| Pieces.IsSlidingKinds | Chessagon.Common/Enums.cs:70-73 | A well-formed piece slides exactly when it is a bishop, rook or queen. Its colour does not matter. |
| Moves.NewMove | Chessagon.Common/Move.cs:10-16 | The constructor stores its four arguments. The defaults are "not castling" and "captured nothing". |
| Moves.Equals | Chessagon.Common/Move.cs:19-22 | Two moves are equal exactly when they agree on everything except the captured piece. |
| Moves.EqualsIsEquivalence | Chessagon.Common/Move.cs:19-22 | Equals is reflexive, symmetric and transitive. |
| Moves.EqualsIgnoresCaptured | Chessagon.Common/Move.cs:19-22 | Changing the captured piece keeps a move equal to itself. Flipping the castle flag does not. |
| Moves.NewMoveDefaults | Chessagon.Common/Move.cs:10-22 | A move built with the defaults equals any non-castling move with the same endpoints, whatever it captured. It differs from the castling one. |
| Boards.InitialCastleStatus | Chessagon.Common/Boards.cs:84 | The AND of the four castle flags sets no castle right. |
| Boards.NewBoard | Chessagon.Common/Boards.cs:77-85 | A new board has every square empty, White to move and no castle rights. |
| Boards.At | Chessagon.Common/Boards.cs:67-69 | The indexer succeeds exactly on 0..63 and returns that square. Any other index raises IndexOutOfRange. |
| Boards.ApplyMove | Chessagon.Common/Boards.cs:87-101 | It raises on an out-of-range `from`. An empty source is refused before `to` is read. Otherwise it raises on an out-of-range `to`. The move is refused, leaving the board unchanged, exactly when the two squares share a colour flag. An applied move empties `from`, puts the moved piece on `to`, leaves every other square alone, flips the side to move and keeps the castle status. |
| Boards.SameSquareRefused | Chessagon.Common/Boards.cs:92-93 | A piece that carries a colour flag is refused when moved onto its own square, and the board is left unchanged. |
| Boards.ColourlessSelfMoveEmpties | Chessagon.Common/Boards.cs:91-96 | A non-empty piece without a colour flag, moved onto its own square, is applied. Its square ends empty, because the source is cleared after the destination is written. |
| Boards.ApplyMoveKeepsColoured | Chessagon.Common/Boards.cs:95-96 | If every occupied square carries a colour before a move, it still does afterwards. |
| Boards.MoveThenMoveBack | Chessagon.Common/Boards.cs:87-101 | Moving a piece onto an empty square and back is applied both times. The result is the original board, side to move included. |
| Boards.RepeatedMoveRefused | Chessagon.Common/Boards.cs:91 | Repeating an applied move is refused, because its source square is now empty. |
| Boards.SideToMoveIgnored | Chessagon.Common/Boards.cs:87-101 | Whose turn it is never decides whether a move fails or is applied. |
| Boards.ApplyMoveKeepsPieces | Chessagon.Common/Boards.cs:95-96 | An applied move between two distinct squares keeps the multiset of squares, except that the captured content is replaced by one empty square. |
| Fen.Split | Chessagon.Common/Boards.cs:112-115 | String.Split keeps empty fields. No field contains the separator. Joining the fields gives back the text. There are two or more fields exactly when the separator occurs. |
| Fen.SplitJoin | Chessagon.Common/Boards.cs:112-115 | Splitting separator-free fields joined by the separator gives back those fields. |
| Fen.CharToPiece | Chessagon.Common/Boards.cs:137-151 | The result is non-empty exactly for the twelve piece letters. A non-empty result is a well-formed piece of the letter's kind, and it is Black exactly when the letter is upper case. |
| Fen.CharToPieceConventionsDisagree | Chessagon.Common/Boards.cs:137-151 | On every piece letter, the two CharToPiece methods agree on the kind and have opposite colours. |
| Fen.OverflowsStep | Chessagon.Common/Boards.cs:120-128 | A rank raises when its first character is a letter past the last square, or when the rest of the rank raises from the next file. |
| Fen.PlaceRank | Chessagon.Common/Boards.cs:120-128 | The loop over one rank raises IndexOutOfRange exactly when some letter lands on square 64 or beyond. |
| Fen.PlaceRankWrites | Chessagon.Common/Boards.cs:120-128 | One rank's loop writes each letter's piece on the square its position in the expanded rank names. Squares covered by digits keep their value. No square outside the rank's cover changes. |
| Fen.PlaceRanks | Chessagon.Common/Boards.cs:115-132 | The loop over the ranks raises exactly when some rank's letter lands past the last square. Rows before the first rank are untouched. |
| Fen.FromFen | Chessagon.Common/Boards.cs:108-135 | Text without a space raises, because there is no second field. Otherwise the read fails exactly when some rank overflows. It is White to move exactly when the second field is `w`, and no castle right is set. |
| Fen.PlaceRankKeepsColoured | Chessagon.Common/Boards.cs:120-128 | A rank's letters write only empty squares or pieces that carry a colour flag, so a coloured board stays coloured. |
| Fen.FromFenColoured | Chessagon.Common/Boards.cs:108-151 | Every occupied square of a board read from FEN text carries a colour flag. |
| Fen.PlaceRanksWellFormed | Chessagon.Common/Boards.cs:116-132 | Well-formed ranks are placed without error, and each is laid onto its own row. Well-formed means each of the first eight ranks covers at most eight squares and any later rank holds no letter. |
| Fen.TrailingSeparator | Chessagon.Common/Boards.cs:115-132 | Adding the empty rank of a trailing `/` keeps well-formed text well formed. The text then describes the same 64 squares. |
| Fen.FromFenPlacement | Chessagon.Common/Boards.cs:108-135 | On well-formed placement text, square `y * 8 + f` holds the piece that the y-th rank's text puts at file f, or is empty. |
| Fen.StartBoard | Chessagon.Common/Boards.cs:108-135 | The standard start FEN reads without error, gives White to move, and lays out its eight ranks on rows 0..7. |
| Fen.StartPosition | Tests/Square/Pawn.cs:9-25 | The standard start FEN gives White's back rank (rook, knight, bishop, queen, king, bishop, knight, rook) on squares 0..7 and White's pawns on 8..15. Squares 16..47 are empty. Black's pawns are on 48..55 and Black's back rank is on 56..63, so the kings stand on 4 and 60. The moves 9→17 and 9→25 are both applied. |

## Left out

- **Events.** The `PieceUpdate` and `PieceMove` events (Boards.cs:57-58, 73, 97) notify observers and do not affect board state.
- **Move class.** `ChessBoard.Move` takes the `Move` class of Boards.cs:26-36, which has only `From` and `To`. `Boards.ApplyMove` takes those two integers directly. As written, the namespace `Chessagon.Common` declares `Move` twice: the class in Boards.cs:26-36 and the struct in Move.cs:3-23. It also declares `Piece` twice (Enums.cs:4-15 and Boards.cs:4-15), and `CastleStatus` twice (Enums.cs:77-83 and Boards.cs:18-24). The model defines each enum once. The `Move` struct is `Moves.Move`.
- **Castle status.** It is never changed after the constructor. Its `[Flags]` values are modelled, but no castling logic exists to model.
- Fen.PlaceRank: the 32-bit wrap of `rank`, `file` and `rank * 8 + file` (Boards.cs:116-128) is not modelled, and neither `Fen.PlaceRanks` nor `Fen.FromFen` models it. The model's integers are unbounded. In C#, text of some 2^29 `/` characters followed by a letter wraps `rank * 8` back to 0 and writes square 0. The model reports `IndexOutOfRange` for that text. Hundreds of millions of `9` digits can wrap `file` in the same way. Only text of that size differs.
- **Enum width.** Pieces are modelled as 8-bit flag sets (`bv8`) instead of the `int` backing the C# enum. Only the eight named flags are ever combined.
- **Characters beyond ASCII.**
  - `char.IsLetter` on non-ASCII letters is left out. Such a letter usually writes an empty square and advances one file; the model skips it. Some, such as U+212A KELVIN SIGN (which lower-cases to `k`), would even give a piece.
  - `ToLower` and `ToUpper` are modelled for ASCII only, as are the culture-sensitive `string.ToLower` and `string.ToUpper` they stand in for.
- **The `valid` flag in `ChessBoard.Move`.** It is always true, so the side to move flips on every applied move. The model states this directly.
- **Unused FEN fields.** Castling, en passant, the half-move clock and the full-move number are read by nothing in the source.
- **En-passant tests.** The tests at Tests/Square/Pawn.cs:27-49 rely on move generation that this core does not contain.
- **Not part of this model.** The SquareBoard UI, move generation, `NumSquaresToEdge`, `GetDirectionTo` and `ToFen` are outside this core.
- Boards.InitialCastleStatus: it states the value the constructor computes, namely no rights at all. It does not state the "all rights" value an `|` would have given. With `CastleStatus.Black = 0`, even that value could not express Black's rights.
- Fen.FromFen: it does not state the board when one of the first eight ranks spills past eight files. In that case the overflowing squares land on the following row. `Fen.PlaceRankWrites` states this square by square, and `Fen.FromFenPlacement` covers well-formed text.

=== FILE: ascii.dfy ===
/** Character classification and case mapping, restricted to ASCII: every
    character outside 'A'..'Z' and 'a'..'z' is treated as having no case. */
module Ascii {

  predicate IsUpper(c: char) {
    'A' <= c <= 'Z'
  }

  predicate IsLower(c: char) {
    'a' <= c <= 'z'
  }

  predicate IsLetter(c: char) {
    IsUpper(c) || IsLower(c)
  }

  predicate IsDigit(c: char) {
    '0' <= c <= '9'
  }

  function ToLower(c: char): (r: char)
    ensures IsUpper(c) ==> IsLower(r) && ToUpper(r) == c
    ensures !IsUpper(c) ==> r == c
  {
    if IsUpper(c) then (c as int + 32) as char else c
  }

  function ToUpper(c: char): (r: char)
    ensures IsLower(c) ==> IsUpper(r) && (r as int + 32) as char == c
    ensures !IsLower(c) ==> r == c
  {
    if IsLower(c) then (c as int - 32) as char else c
  }

  /** The value int.TryParse gives a one-character string holding a digit. */
  function DigitValue(c: char): (n: nat)
    requires IsDigit(c)
    ensures n <= 9
    ensures (('0' as int) + n) as char == c
  {
    c as int - '0' as int
  }
}

=== FILE: board.dfy ===
/** The 64-square board of Chessagon.Common/Boards.cs and its one state
    transition, ChessBoard.Move. */
module Boards {
  import opened Wrappers
  import opened Pieces

  /** The castle-rights flags; Black is the zero flag. */
  type CastleStatus = bv8

  const CastleBlack: CastleStatus := 0
  const CastleWhite: CastleStatus := 1
  const CastleQueen: CastleStatus := 2
  const CastleKing: CastleStatus := 4

  /** The square array: always 64 entries, indexed rank * 8 + file. */
  type Squares = s: seq<Piece> | |s| == 64 witness seq(64, i => 0)

  datatype Board = Board(squares: Squares, whiteToMove: bool, castleStatus: CastleStatus)

  /** The outcome of ChessBoard.Move: whether it was applied, and the board after it. */
  datatype MoveOutcome = MoveOutcome(applied: bool, board: Board)

  /** The castle status the constructor stores: the AND of all four flags. */
  function InitialCastleStatus(): (c: CastleStatus)
    ensures c == 0
    ensures c & CastleWhite == 0 && c & CastleQueen == 0 && c & CastleKing == 0
  {
    CastleBlack & CastleWhite & CastleKing & CastleQueen
  }

  /** The private ChessBoard constructor: every square empty, White to move. */
  function NewBoard(): (b: Board)
    ensures forall i :: 0 <= i < 64 ==> b.squares[i] == 0
    ensures b.whiteToMove
    ensures b.castleStatus == 0
  {
    Board(seq(64, i => 0), true, InitialCastleStatus())
  }

  /** The indexer getter: an index outside the array raises. */
  function At(b: Board, index: int): (r: Result<Piece>)
    ensures r.Success? <==> 0 <= index < 64
    ensures r.Success? ==> r.value == b.squares[index]
    ensures r.Failure? ==> r.error == IndexOutOfRange
  {
    if 0 <= index < 64 then Success(b.squares[index]) else Failure(IndexOutOfRange)
  }

  /** ChessBoard.Move: refuses an empty source square and a destination that
      shares a colour flag with the source; otherwise moves the piece, empties
      the source and passes the turn. Neither the side to move nor the
      geometry of the move is consulted. */
  function ApplyMove(b: Board, from: int, to: int): (r: Result<MoveOutcome>)
    // the source is read first; an empty source refuses before the destination is read
    ensures !(0 <= from < 64) ==> r == Failure(IndexOutOfRange)
    ensures 0 <= from < 64 && b.squares[from] == 0 ==> r == Success(MoveOutcome(false, b))
    ensures 0 <= from < 64 && b.squares[from] != 0 && !(0 <= to < 64) ==> r == Failure(IndexOutOfRange)
    ensures r.Success? ==> 0 <= from < 64
    ensures r.Success? && r.value.applied ==> 0 <= to < 64 && b.squares[from] != 0
    // refusal exactly when the two squares share a colour flag
    ensures 0 <= from < 64 && 0 <= to < 64 && b.squares[from] != 0 ==>
              r.Success? && (r.value.applied <==> b.squares[from] & b.squares[to] & ColorMask == 0)
    ensures r.Success? && !r.value.applied ==> r.value.board == b
    // the effect of an applied move
    ensures r.Success? && r.value.applied ==>
              var b' := r.value.board;
              && b'.squares[from] == 0
              && (from != to ==> b'.squares[to] == b.squares[from])
              && (forall i :: 0 <= i < 64 && i != from && i != to ==> b'.squares[i] == b.squares[i])
              && b'.whiteToMove == !b.whiteToMove
              && b'.castleStatus == b.castleStatus
  {
    var source :- At(b, from);
    if source == 0 then Success(MoveOutcome(false, b))
    else
      var target :- At(b, to);
      if HasFlag(source & target, Black) then Success(MoveOutcome(false, b))
      else if HasFlag(source & target, White) then Success(MoveOutcome(false, b))
      else
        var squares := b.squares[to := source][from := 0];
        Success(MoveOutcome(true, Board(squares, !b.whiteToMove, b.castleStatus)))
  }

  /** Squares every occupied one of which carries a colour flag. */
  predicate Coloured(squares: Squares) {
    forall i :: 0 <= i < 64 && squares[i] != 0 ==> squares[i] & ColorMask != 0
  }

  /** A coloured piece can never move onto its own square: it shares its
      colour with itself. */
  lemma SameSquareRefused(b: Board, sq: int)
    requires 0 <= sq < 64 && b.squares[sq] & ColorMask != 0
    ensures ApplyMove(b, sq, sq) == Success(MoveOutcome(false, b))
  {
  }

  /** A colourless piece moved onto its own square is applied, and the
      square ends empty: the source is cleared after the destination is written. */
  lemma ColourlessSelfMoveEmpties(b: Board, sq: int)
    requires 0 <= sq < 64 && b.squares[sq] != 0 && b.squares[sq] & ColorMask == 0
    ensures ApplyMove(b, sq, sq).Success? && ApplyMove(b, sq, sq).value.applied
    ensures ApplyMove(b, sq, sq).value.board.squares == b.squares[sq := 0]
  {
  }

  /** A move keeps every occupied square coloured. */
  lemma ApplyMoveKeepsColoured(b: Board, from: int, to: int)
    requires Coloured(b.squares) && ApplyMove(b, from, to).Success?
    ensures Coloured(ApplyMove(b, from, to).value.board.squares)
  {
  }

  /** Moving a piece onto an empty square and back restores the board
      exactly, side to move included. */
  lemma MoveThenMoveBack(b: Board, from: int, to: int)
    requires 0 <= from < 64 && 0 <= to < 64 && from != to
    requires b.squares[from] != 0 && b.squares[to] == 0
    ensures ApplyMove(b, from, to).Success? && ApplyMove(b, from, to).value.applied
    ensures ApplyMove(ApplyMove(b, from, to).value.board, to, from) == Success(MoveOutcome(true, b))
  {
    var b' := ApplyMove(b, from, to).value.board;
    var b'' := ApplyMove(b', to, from).value.board;
    assert b''.squares == b.squares;
  }

  /** Repeating an applied move is refused, because its source is now empty. */
  lemma RepeatedMoveRefused(b: Board, from: int, to: int)
    requires ApplyMove(b, from, to).Success? && ApplyMove(b, from, to).value.applied
    ensures var b' := ApplyMove(b, from, to).value.board;
            ApplyMove(b', from, to) == Success(MoveOutcome(false, b'))
  {
  }

  /** Whose turn it is never decides whether a move is applied. */
  lemma SideToMoveIgnored(b: Board, from: int, to: int)
    ensures var r := ApplyMove(b, from, to);
            var r' := ApplyMove(b.(whiteToMove := !b.whiteToMove), from, to);
            && r.Success? == r'.Success?
            && (r.Success? ==> r.value.applied == r'.value.applied)
  {
  }

  /** An applied move between distinct squares keeps every piece on the
      board except the one it captures, which becomes an empty square. */
  lemma ApplyMoveKeepsPieces(b: Board, from: int, to: int)
    requires from != to
    requires ApplyMove(b, from, to).Success? && ApplyMove(b, from, to).value.applied
    ensures multiset(ApplyMove(b, from, to).value.board.squares)
            == multiset(b.squares) - multiset{b.squares[to]} + multiset{0}
  {
  }
}

=== FILE: fen.dfy ===
/** ChessBoard.FromFEN of Chessagon.Common/Boards.cs: the piece-placement and
    side-to-move fields of a FEN string turned into a board. */
module Fen {
  import opened Wrappers
  import opened Ascii
  import opened Pieces
  import opened Boards

  /** The text `parts` stands for once its entries are joined with `sep`. */
  function Join(parts: seq<string>, sep: char): string
    requires |parts| >= 1
  {
    if |parts| == 1 then parts[0] else parts[0] + [sep] + Join(parts[1..], sep)
  }

  /** String.Split(char): every occurrence of `sep` ends a field, empty fields
      are kept, so there is always at least one field. */
  function Split(s: string, sep: char): (parts: seq<string>)
    ensures |parts| >= 1
    ensures forall i :: 0 <= i < |parts| ==> sep !in parts[i]
    ensures Join(parts, sep) == s
    ensures |parts| >= 2 <==> sep in s
  {
    if s == [] then [[]]
    else
      var rest := Split(s[1..], sep);
      if s[0] == sep then
        assert s == [sep] + s[1..];
        [[]] + rest
      else
        assert s == [s[0]] + s[1..];
        [[s[0]] + rest[0]] + rest[1..]
  }

  /** Text without the separator is a single field. */
  lemma {:induction false} SplitNoSeparator(a: string, sep: char)
    requires sep !in a
    ensures Split(a, sep) == [a]
  {
    if a != [] {
      SplitNoSeparator(a[1..], sep);
      assert a == [a[0]] + a[1..];
    }
  }

  /** A separator after separator-free text ends exactly one field. */
  lemma {:induction false} SplitAtSeparator(a: string, b: string, sep: char)
    requires sep !in a
    ensures Split(a + [sep] + b, sep) == [a] + Split(b, sep)
  {
    var s := a + [sep] + b;
    if a == [] {
      assert s[0] == sep && s[1..] == b;
    } else {
      assert s[0] == a[0] && s[0] != sep;
      assert s[1..] == a[1..] + [sep] + b;
      SplitAtSeparator(a[1..], b, sep);
      var rest := Split(s[1..], sep);
      assert rest == [a[1..]] + Split(b, sep);
      assert Split(s, sep) == [[a[0]] + rest[0]] + rest[1..];
      assert [a[0]] + a[1..] == a;
    }
  }

  /** Split undoes Join on fields free of the separator. */
  lemma {:induction false} SplitJoin(parts: seq<string>, sep: char)
    requires |parts| >= 1
    requires forall i :: 0 <= i < |parts| ==> sep !in parts[i]
    ensures Split(Join(parts, sep), sep) == parts
  {
    if |parts| == 1 {
      SplitNoSeparator(parts[0], sep);
    } else {
      SplitJoin(parts[1..], sep);
      SplitAtSeparator(parts[0], Join(parts[1..], sep), sep);
      assert parts == [parts[0]] + parts[1..];
    }
  }

  /** The private ChessBoard.CharToPiece: upper-case letters are Black and
      lower-case letters White, the reverse of PieceExtensions.CharToPiece. */
  function CharToPiece(c: char): (p: Piece)
    ensures p != 0 <==> ToLower(c) in PieceLetters
    ensures p != 0 ==> IsPiece(p)
    ensures p != 0 ==> p & KindMask == KindOfLetter(ToLower(c))
    ensures p != 0 ==> (p & ColorMask == Black <==> IsUpper(c))
  {
    var colour := if ToUpper(c) == c then Black else White;
    var kind := KindOfLetter(ToLower(c));
    if kind == 0 then 0 else kind | colour
  }

  /** The two letter conventions agree on the kind and disagree on the colour
      of every piece letter. */
  lemma CharToPieceConventionsDisagree(c: char)
    requires ToLower(c) in PieceLetters
    ensures CharToPiece(c) & KindMask == Pieces.CharToPiece(c) & KindMask
    ensures CharToPiece(c) == Pieces.CharToPiece(c) ^ ColorMask
  {
  }

  /** What one placement character stands for: a letter fills one square,
      a digit skips that many squares, anything else is passed over. */
  function Contribution(c: char): seq<Option<Piece>> {
    if IsLetter(c) then [Some(CharToPiece(c))]
    else if IsDigit(c) then seq(DigitValue(c), _ => None)
    else []
  }

  /** The squares a rank's text covers, in order: Some(p) where it writes p,
      None where it leaves the square alone. */
  function Expand(rank: string): seq<Option<Piece>> {
    if rank == [] then [] else Contribution(rank[0]) + Expand(rank[1..])
  }

  lemma {:induction false} ExpandAppend(a: string, b: string)
    ensures Expand(a + b) == Expand(a) + Expand(b)
  {
    if a == [] {
      assert a + b == b;
    } else {
      var ab := a + b;
      assert ab[0] == a[0] && ab[1..] == a[1..] + b;
      ExpandAppend(a[1..], b);
      assert Expand(ab) == Contribution(a[0]) + Expand(a[1..] + b);
    }
  }

  /** The file a rank's character at position j is written to, counted from
      the rank's first file. */
  function FileOf(rank: string, j: nat): nat
    requires j <= |rank|
  {
    |Expand(rank[..j])|
  }

  lemma FileOfStep(rank: string, j: nat)
    requires 0 < |rank| && j < |rank|
    ensures FileOf(rank, j + 1) == |Contribution(rank[0])| + FileOf(rank[1..], j)
  {
    assert rank[..j + 1] == [rank[0]] + rank[1..][..j];
    ExpandAppend([rank[0]], rank[1..][..j]);
    assert [rank[0]][1..] == [];
  }

  /** Some letter of `rank`, started at `file` of row `row`, lands past the last square. */
  predicate Overflows(row: nat, rank: string, file: nat) {
    exists j :: 0 <= j < |rank| && IsLetter(rank[j]) && row * 8 + file + FileOf(rank, j) >= 64
  }

  /** A rank overflows when its first character is a letter past the last
      square, or when the rest of it overflows from the next file. */
  lemma OverflowsStep(row: nat, rank: string, file: nat)
    requires rank != []
    ensures Overflows(row, rank, file) <==>
            (IsLetter(rank[0]) && row * 8 + file >= 64)
            || Overflows(row, rank[1..], file + |Contribution(rank[0])|)
  {
    var tail := rank[1..];
    var advance := |Contribution(rank[0])|;
    assert FileOf(rank, 0) == 0 by { assert rank[..0] == []; }
    forall j | 0 <= j < |tail|
      ensures FileOf(rank, j + 1) == advance + FileOf(tail, j)
    {
      FileOfStep(rank, j);
    }
    if Overflows(row, tail, file + advance) {
      var j :| 0 <= j < |tail| && IsLetter(tail[j]) && row * 8 + file + advance + FileOf(tail, j) >= 64;
      assert rank[j + 1] == tail[j];
    }
    if Overflows(row, rank, file) && !(IsLetter(rank[0]) && row * 8 + file >= 64) {
      var j :| 0 <= j < |rank| && IsLetter(rank[j]) && row * 8 + file + FileOf(rank, j) >= 64;
      assert j > 0;
      assert tail[j - 1] == rank[j];
    }
  }

  /** The inner loop of FromFEN over one rank's characters, starting at `file`:
      a letter past the last square raises. */
  function PlaceRank(squares: Squares, row: nat, rank: string, file: nat): (r: Result<Squares>)
    decreases |rank|
    ensures r.Failure? <==> Overflows(row, rank, file)
    ensures r.Failure? ==> r.error == IndexOutOfRange
  {
    if rank == [] then Success(squares)
    else
      var c := rank[0];
      var tail := rank[1..];
      OverflowsStep(row, rank, file);
      if IsLetter(c) then
        var index := row * 8 + file;
        if index >= 64 then Failure(IndexOutOfRange)
        else PlaceRank(squares[index := CharToPiece(c)], row, tail, file + 1)
      else if IsDigit(c) then PlaceRank(squares, row, tail, file + DigitValue(c))
      else PlaceRank(squares, row, tail, file)
  }

  /** `after` is `before` with the cover `e` laid from square `start` on:
      Some(p) writes p, None keeps the old piece, squares outside the cover
      are untouched. */
  predicate Overlays(after: Squares, before: Squares, start: int, e: seq<Option<Piece>>) {
    && (forall i :: 0 <= i < 64 && !(start <= i < start + |e|) ==> after[i] == before[i])
    && (forall k :: 0 <= k < |e| && 0 <= start + k < 64 ==>
          after[start + k] == (if e[k].Some? then e[k].value else before[start + k]))
  }

  /** Writing p at `start` and then laying `et` from the next square lays
      [Some(p)] + et from `start`. */
  lemma OverlayLetter(after: Squares, before: Squares, start: int, p: Piece, et: seq<Option<Piece>>)
    requires 0 <= start < 64
    requires Overlays(after, before[start := p], start + 1, et)
    ensures Overlays(after, before, start, [Some(p)] + et)
  {
    var e := [Some(p)] + et;
    forall k | 0 <= k < |e| && 0 <= start + k < 64
      ensures after[start + k] == (if e[k].Some? then e[k].value else before[start + k])
    {
      if k > 0 {
        assert e[k] == et[k - 1];
        assert after[(start + 1) + (k - 1)] == (if et[k - 1].Some? then et[k - 1].value else before[start := p][(start + 1) + (k - 1)]);
      }
    }
  }

  /** Skipping d squares and then laying `et` lays d Nones followed by et. */
  lemma OverlaySkip(after: Squares, before: Squares, start: int, d: nat, et: seq<Option<Piece>>)
    requires Overlays(after, before, start + d, et)
    ensures Overlays(after, before, start, seq(d, _ => None) + et)
  {
    var e := seq(d, _ => None) + et;
    forall k | 0 <= k < |e| && 0 <= start + k < 64
      ensures after[start + k] == (if e[k].Some? then e[k].value else before[start + k])
    {
      if k >= d {
        assert e[k] == et[k - d];
        assert after[(start + d) + (k - d)] == (if et[k - d].Some? then et[k - d].value else before[(start + d) + (k - d)]);
      }
    }
  }

  /** PlaceRank after its first character. */
  lemma PlaceRankStep(squares: Squares, row: nat, rank: string, file: nat)
    requires rank != []
    ensures IsLetter(rank[0]) && row * 8 + file < 64 ==>
              PlaceRank(squares, row, rank, file)
              == PlaceRank(squares[row * 8 + file := CharToPiece(rank[0])], row, rank[1..], file + 1)
    ensures !IsLetter(rank[0]) ==>
              PlaceRank(squares, row, rank, file)
              == PlaceRank(squares, row, rank[1..], file + |Contribution(rank[0])|)
  {
  }

  /** What PlaceRank writes: the squares the rank covers, from `file` on, take
      the rank's letters and keep their old value under digits; every other
      square is left as it was. */
  lemma {:induction false} PlaceRankWrites(squares: Squares, row: nat, rank: string, file: nat)
    requires PlaceRank(squares, row, rank, file).Success?
    decreases |rank|, 1
    ensures Overlays(PlaceRank(squares, row, rank, file).value, squares, row * 8 + file, Expand(rank))
  {
    if rank != [] {
      if IsLetter(rank[0]) {
        PlaceRankWritesLetter(squares, row, rank, file);
      } else {
        PlaceRankWritesSkip(squares, row, rank, file);
      }
    }
  }

  lemma {:induction false} PlaceRankWritesLetter(squares: Squares, row: nat, rank: string, file: nat)
    requires PlaceRank(squares, row, rank, file).Success?
    requires rank != [] && IsLetter(rank[0])
    decreases |rank|, 0
    ensures Overlays(PlaceRank(squares, row, rank, file).value, squares, row * 8 + file, Expand(rank))
  {
    var start := row * 8 + file;
    var sq1 := squares[start := CharToPiece(rank[0])];
    PlaceRankStep(squares, row, rank, file);
    PlaceRankWrites(sq1, row, rank[1..], file + 1);
    assert Expand(rank) == [Some(CharToPiece(rank[0]))] + Expand(rank[1..]);
    OverlayLetter(PlaceRank(squares, row, rank, file).value, squares, start, CharToPiece(rank[0]), Expand(rank[1..]));
  }

  lemma {:induction false} PlaceRankWritesSkip(squares: Squares, row: nat, rank: string, file: nat)
    requires PlaceRank(squares, row, rank, file).Success?
    requires rank != [] && !IsLetter(rank[0])
    decreases |rank|, 0
    ensures Overlays(PlaceRank(squares, row, rank, file).value, squares, row * 8 + file, Expand(rank))
  {
    var d := |Contribution(rank[0])|;
    assert Contribution(rank[0]) == seq(d, _ => None);
    PlaceRankStep(squares, row, rank, file);
    PlaceRankWrites(squares, row, rank[1..], file + d);
    assert Expand(rank) == seq(d, _ => None) + Expand(rank[1..]);
    OverlaySkip(PlaceRank(squares, row, rank, file).value, squares, row * 8 + file, d, Expand(rank[1..]));
  }

  /** Some rank of `ranks`, the first on row `row`, lands a letter past the last square. */
  predicate RanksOverflow(ranks: seq<string>, row: nat) {
    exists i :: 0 <= i < |ranks| && Overflows(row + i, ranks[i], 0)
  }

  /** The outer loop of FromFEN: the i-th rank fills row `row + i`. */
  function PlaceRanks(squares: Squares, ranks: seq<string>, row: nat): (r: Result<Squares>)
    decreases |ranks|
    ensures r.Failure? <==> RanksOverflow(ranks, row)
    ensures r.Failure? ==> r.error == IndexOutOfRange
    ensures r.Success? ==> forall i :: 0 <= i < 64 && i < row * 8 ==> r.value[i] == squares[i]
  {
    if ranks == [] then Success(squares)
    else
      assert RanksOverflow(ranks, row) <==>
             Overflows(row, ranks[0], 0) || RanksOverflow(ranks[1..], row + 1) by {
        if RanksOverflow(ranks[1..], row + 1) {
          var i :| 0 <= i < |ranks| - 1 && Overflows(row + 1 + i, ranks[1..][i], 0);
          assert ranks[i + 1] == ranks[1..][i];
        }
        if RanksOverflow(ranks, row) && !Overflows(row, ranks[0], 0) {
          var i :| 0 <= i < |ranks| && Overflows(row + i, ranks[i], 0);
          assert i > 0 && ranks[1..][i - 1] == ranks[i];
        }
      }
      var placed :- PlaceRank(squares, row, ranks[0], 0);
      PlaceRankWrites(squares, row, ranks[0], 0);
      PlaceRanks(placed, ranks[1..], row + 1)
  }

  /** ChessBoard.FromFEN: the second space-separated field decides the side to
      move, the first is placed rank by rank onto an empty board. Missing the
      second field, or a letter past the last square, raises. */
  function FromFen(fen: string): (r: Result<Board>)
    ensures ' ' !in fen ==> r == Failure(IndexOutOfRange)
    ensures r.Failure? ==> r.error == IndexOutOfRange
    ensures ' ' in fen ==> (r.Failure? <==> RanksOverflow(Split(Split(fen, ' ')[0], '/'), 0))
    ensures r.Success? ==> (r.value.whiteToMove <==> Split(fen, ' ')[1] == "w")
    ensures r.Success? ==> r.value.castleStatus == 0
  {
    var board := NewBoard();
    var sections := Split(fen, ' ');
    if |sections| < 2 then Failure(IndexOutOfRange)
    else
      var whiteToMove := sections[1] == "w";
      var squares :- PlaceRanks(board.squares, Split(sections[0], '/'), 0);
      Success(Board(squares, whiteToMove, board.castleStatus))
  }

  /** The letters of a rank write only empty squares or coloured pieces. */
  lemma {:induction false} PlaceRankKeepsColoured(squares: Squares, row: nat, rank: string, file: nat)
    requires Coloured(squares) && PlaceRank(squares, row, rank, file).Success?
    decreases |rank|
    ensures Coloured(PlaceRank(squares, row, rank, file).value)
  {
    if rank != [] {
      PlaceRankStep(squares, row, rank, file);
      if IsLetter(rank[0]) {
        PlaceRankKeepsColoured(squares[row * 8 + file := CharToPiece(rank[0])], row, rank[1..], file + 1);
      } else {
        PlaceRankKeepsColoured(squares, row, rank[1..], file + |Contribution(rank[0])|);
      }
    }
  }

  lemma {:induction false} PlaceRanksKeepsColoured(squares: Squares, ranks: seq<string>, row: nat)
    requires Coloured(squares) && PlaceRanks(squares, ranks, row).Success?
    decreases |ranks|
    ensures Coloured(PlaceRanks(squares, ranks, row).value)
  {
    if ranks != [] {
      var placed := PlaceRank(squares, row, ranks[0], 0).value;
      PlaceRankKeepsColoured(squares, row, ranks[0], 0);
      PlaceRanksKeepsColoured(placed, ranks[1..], row + 1);
    }
  }

  /** Every occupied square of a board read from FEN text carries a colour,
      so on such a board no piece can move onto its own square. */
  lemma FromFenColoured(fen: string)
    requires FromFen(fen).Success?
    ensures Coloured(FromFen(fen).value.squares)
  {
    PlaceRanksKeepsColoured(NewBoard().squares, Split(Split(fen, ' ')[0], '/'), 0);
  }

  /** Placement text whose ranks, starting on row `row`, each cover at most
      eight squares of their row; ranks past the last row, such as the empty
      one a trailing '/' adds, hold no letter. */
  predicate WellFormed(ranks: seq<string>, row: nat) {
    && (forall i :: 0 <= i < |ranks| && row + i < 8 ==> |Expand(ranks[i])| <= 8)
    && (forall i :: 0 <= i < |ranks| && row + i >= 8 ==> NoLetters(ranks[i]))
  }

  predicate NoLetters(rank: string) {
    forall j :: 0 <= j < |rank| ==> !IsLetter(rank[j])
  }

  /** The square at row y, file f once `ranks` are laid over `squares` from row `row`. */
  function Laid(squares: Squares, ranks: seq<string>, row: nat, y: nat, f: nat): Piece
    requires y < 8 && f < 8
  {
    if row <= y < row + |ranks| && f < |Expand(ranks[y - row])| && Expand(ranks[y - row])[f].Some?
    then Expand(ranks[y - row])[f].value
    else squares[y * 8 + f]
  }

  /** A letter sits at a file strictly before the end of its rank's cover. */
  lemma LetterFileBound(rank: string, j: nat)
    requires j < |rank| && IsLetter(rank[j])
    ensures FileOf(rank, j) < |Expand(rank)|
  {
    assert rank == rank[..j] + rank[j..];
    ExpandAppend(rank[..j], rank[j..]);
    assert Expand(rank[j..]) == Contribution(rank[j]) + Expand(rank[j + 1..]);
  }

  /** A well-formed rank never overflows its row. */
  lemma WellFormedRankFits(row: nat, rank: string)
    requires row < 8 && |Expand(rank)| <= 8
    ensures !Overflows(row, rank, 0)
  {
    forall j | 0 <= j < |rank| && IsLetter(rank[j])
      ensures row * 8 + FileOf(rank, j) < 64
    {
      LetterFileBound(rank, j);
    }
  }

  /** Well-formed ranks are placed without error, each onto its own row. */
  lemma {:induction false} PlaceRanksWellFormed(squares: Squares, ranks: seq<string>, row: nat)
    requires WellFormed(ranks, row)
    decreases |ranks|
    ensures PlaceRanks(squares, ranks, row).Success?
    ensures forall y, f :: row <= y < 8 && 0 <= f < 8 ==>
              PlaceRanks(squares, ranks, row).value[y * 8 + f] == Laid(squares, ranks, row, y, f)
  {
    if ranks != [] {
      if row < 8 {
        WellFormedRankFits(row, ranks[0]);
      } else {
        assert NoLetters(ranks[0]);
      }
      var placed := PlaceRank(squares, row, ranks[0], 0).value;
      PlaceRankWrites(squares, row, ranks[0], 0);
      var tail := ranks[1..];
      assert WellFormed(tail, row + 1) by {
        forall i | 0 <= i < |tail|
          ensures row + 1 + i < 8 ==> |Expand(tail[i])| <= 8
          ensures row + 1 + i >= 8 ==> NoLetters(tail[i])
        {
          assert tail[i] == ranks[i + 1];
        }
      }
      PlaceRanksWellFormed(placed, tail, row + 1);
      var r := PlaceRanks(squares, ranks, row).value;
      assert r == PlaceRanks(placed, tail, row + 1).value;
      forall y, f | row <= y < 8 && 0 <= f < 8
        ensures r[y * 8 + f] == Laid(squares, ranks, row, y, f)
      {
        if y == row {
          assert r[y * 8 + f] == placed[y * 8 + f];
        } else {
          assert r[y * 8 + f] == Laid(placed, tail, row + 1, y, f);
          if y < row + |ranks| {
            assert tail[y - (row + 1)] == ranks[y - row];
          }
        }
      }
    }
  }

  /** The square of row y, file f that a well-formed placement field describes:
      its ranks laid over an empty board. */
  function FenSquare(ranks: seq<string>, y: nat, f: nat): Piece
    requires y < 8 && f < 8
  {
    Laid(NewBoard().squares, ranks, 0, y, f)
  }

  /** FromFEN on well-formed placement text: the i-th rank fills squares
      i * 8 .. i * 8 + 7, letters by the upper-is-Black convention, digits and
      unlisted squares left empty. */
  lemma FromFenPlacement(fen: string)
    requires ' ' in fen
    requires WellFormed(Split(Split(fen, ' ')[0], '/'), 0)
    ensures FromFen(fen).Success?
    ensures forall y, f :: 0 <= y < 8 && 0 <= f < 8 ==>
              FromFen(fen).value.squares[y * 8 + f] == FenSquare(Split(Split(fen, ' ')[0], '/'), y, f)
  {
    var ranks := Split(Split(fen, ' ')[0], '/');
    var empty := NewBoard().squares;
    PlaceRanksOnEmpty(ranks);
    assert FromFen(fen).value.squares == PlaceRanks(empty, ranks, 0).value;
  }

  lemma PlaceRanksOnEmpty(ranks: seq<string>)
    requires WellFormed(ranks, 0)
    ensures PlaceRanks(NewBoard().squares, ranks, 0).Success?
    ensures forall y, f :: 0 <= y < 8 && 0 <= f < 8 ==>
              PlaceRanks(NewBoard().squares, ranks, 0).value[y * 8 + f] == FenSquare(ranks, y, f)
  {
    PlaceRanksWellFormed(NewBoard().squares, ranks, 0);
  }

  /** A trailing '/' adds an empty rank past the text's last one: the text
      stays well formed and describes the same squares. */
  lemma TrailingSeparator(ranks: seq<string>)
    requires WellFormed(ranks, 0)
    ensures WellFormed(ranks + [""], 0)
    ensures forall y, f :: 0 <= y < 8 && 0 <= f < 8 ==> FenSquare(ranks + [""], y, f) == FenSquare(ranks, y, f)
  {
  }

  /** A rank made of letters only covers one square per letter. */
  lemma {:induction false} ExpandLetters(rank: string)
    requires forall j :: 0 <= j < |rank| ==> IsLetter(rank[j])
    ensures Expand(rank) == seq(|rank|, k requires 0 <= k < |rank| => Some(CharToPiece(rank[k])))
  {
    if rank != [] {
      ExpandLetters(rank[1..]);
    }
  }

  /** Joining fields that avoid a character, with a different separator, avoids it too. */
  lemma {:induction false} JoinAvoids(parts: seq<string>, sep: char, c: char)
    requires |parts| >= 1 && c != sep
    requires forall i :: 0 <= i < |parts| ==> c !in parts[i]
    ensures c !in Join(parts, sep)
  {
    if |parts| > 1 {
      JoinAvoids(parts[1..], sep, c);
    }
  }

  /** The start position's ranks, first rank first. */
  const WhitePieces: string := "rnbqkbnr"
  const WhitePawns: string := "pppppppp"
  const EmptyRank: string := "8"
  const BlackPawns: string := "PPPPPPPP"
  const BlackPieces: string := "RNBQKBNR"
  const StartRanks: seq<string> :=
    [WhitePieces, WhitePawns, EmptyRank, EmptyRank, EmptyRank, EmptyRank, BlackPawns, BlackPieces]
  const StartFields: seq<string> := [Join(StartRanks, '/'), "w", "KQkq", "-", "0", "1"]
  /** "rnbqkbnr/pppppppp/8/8/8/8/PPPPPPPP/RNBQKBNR w KQkq - 0 1", the text the
      game board and the pawn tests load. */
  const StartFen: string := Join(StartFields, ' ')

  lemma StartRanksSplit()
    ensures Split(Join(StartRanks, '/'), '/') == StartRanks
  {
    assert forall i :: 0 <= i < |StartRanks| ==> '/' !in StartRanks[i];
    SplitJoin(StartRanks, '/');
  }

  lemma StartPlacementHasNoSpace()
    ensures ' ' !in Join(StartRanks, '/')
  {
    assert forall i :: 0 <= i < |StartRanks| ==> ' ' !in StartRanks[i];
    JoinAvoids(StartRanks, '/', ' ');
  }

  lemma StartFenFields()
    ensures Split(StartFen, ' ') == StartFields
  {
    StartPlacementHasNoSpace();
    assert forall i :: 0 <= i < |StartFields| ==> ' ' !in StartFields[i];
    SplitJoin(StartFields, ' ');
  }

  /** A rank of eight letters, as FromFEN reads it. */
  lemma EightLetters(rank: string)
    requires |rank| == 8 && forall j :: 0 <= j < 8 ==> IsLetter(rank[j])
    ensures |Expand(rank)| == 8
    ensures forall f :: 0 <= f < 8 ==> Expand(rank)[f] == Some(CharToPiece(rank[f]))
  {
    ExpandLetters(rank);
  }

  lemma EightEmpty()
    ensures Expand(EmptyRank) == seq(8, _ => None)
  {
    assert "8"[1..] == [];
  }

  lemma StartRanksWellFormed(ranks: seq<string>)
    requires ranks == StartRanks
    ensures WellFormed(ranks, 0)
  {
    assert |ranks| == 8;
    forall i | 0 <= i < 8
      ensures |Expand(ranks[i])| == 8
    {
      StartRankCovers(ranks, i);
    }
  }

  /** Every rank of the start position covers exactly eight squares. */
  lemma StartRankCovers(ranks: seq<string>, i: nat)
    requires ranks == StartRanks && i < 8
    ensures |Expand(ranks[i])| == 8
  {
    if 2 <= i < 6 {
      assert ranks[i] == EmptyRank;
      EightEmpty();
    } else {
      assert |ranks[i]| == 8 && forall j :: 0 <= j < 8 ==> IsLetter(ranks[i][j]);
      ExpandLetters(ranks[i]);
    }
  }

  /** A square of a rank written as eight letters holds that letter's piece. */
  lemma FenSquareOfLetters(ranks: seq<string>, y: nat, f: nat)
    requires y < |ranks| && y < 8 && f < 8
    requires |ranks[y]| == 8 && forall j :: 0 <= j < 8 ==> IsLetter(ranks[y][j])
    ensures FenSquare(ranks, y, f) == CharToPiece(ranks[y][f])
  {
    EightLetters(ranks[y]);
  }

  /** The letters of the start position's pawn ranks. */
  lemma StartLetters(ranks: seq<string>)
    requires ranks == StartRanks
    ensures forall f :: 0 <= f < 8 ==> CharToPiece(ranks[1][f]) == White | Pawn
    ensures forall f :: 0 <= f < 8 ==> CharToPiece(ranks[6][f]) == Black | Pawn
  {
    assert forall f :: 0 <= f < 8 ==> ranks[1][f] == 'p' && ranks[6][f] == 'P';
  }

  /** The kinds along a back rank, file 0 first. */
  const BackRank: seq<Piece> := [Rook, Knight, Bishop, Queen, King, Bishop, Knight, Rook]

  lemma WhiteBackLetters(rank: string)
    requires rank == WhitePieces
    ensures forall f :: 0 <= f < 8 ==> CharToPiece(rank[f]) == White | BackRank[f]
  {
  }

  lemma BlackBackLetters(rank: string)
    requires rank == BlackPieces
    ensures forall f :: 0 <= f < 8 ==> CharToPiece(rank[f]) == Black | BackRank[f]
  {
  }

  lemma StartBackRanks(ranks: seq<string>)
    requires ranks == StartRanks
    ensures forall f :: 0 <= f < 8 ==> FenSquare(ranks, 0, f) == White | BackRank[f]
    ensures forall f :: 0 <= f < 8 ==> FenSquare(ranks, 7, f) == Black | BackRank[f]
  {
    BackRankSquares(ranks, 0, White);
    BackRankSquares(ranks, 7, Black);
  }

  /** Row y of the start position holds colour's back rank. */
  lemma BackRankSquares(ranks: seq<string>, y: nat, colour: Piece)
    requires ranks == StartRanks
    requires (y == 0 && colour == White) || (y == 7 && colour == Black)
    ensures forall f :: 0 <= f < 8 ==> FenSquare(ranks, y, f) == colour | BackRank[f]
  {
    if y == 0 {
      WhiteBackLetters(ranks[0]);
    } else {
      BlackBackLetters(ranks[7]);
    }
    forall f | 0 <= f < 8
      ensures FenSquare(ranks, y, f) == colour | BackRank[f]
    {
      FenSquareOfLetters(ranks, y, f);
    }
  }

  lemma StartPawns(ranks: seq<string>)
    requires ranks == StartRanks
    ensures forall f :: 0 <= f < 8 ==> FenSquare(ranks, 1, f) == White | Pawn
    ensures forall f :: 0 <= f < 8 ==> FenSquare(ranks, 6, f) == Black | Pawn
  {
    StartLetters(ranks);
    forall f | 0 <= f < 8
      ensures FenSquare(ranks, 1, f) == White | Pawn
      ensures FenSquare(ranks, 6, f) == Black | Pawn
    {
      FenSquareOfLetters(ranks, 1, f);
      FenSquareOfLetters(ranks, 6, f);
    }
  }

  lemma StartMiddleEmpty(ranks: seq<string>)
    requires ranks == StartRanks
    ensures forall y, f :: 2 <= y < 6 && 0 <= f < 8 ==> FenSquare(ranks, y, f) == 0
  {
    EightEmpty();
  }

  /** FromFEN on the start position text lays out StartRanks, White to move. */
  lemma StartBoard(fen: string)
    requires fen == StartFen
    ensures FromFen(fen).Success?
    ensures FromFen(fen).value.whiteToMove
    ensures forall y, f :: 0 <= y < 8 && 0 <= f < 8 ==>
              FromFen(fen).value.squares[y * 8 + f] == FenSquare(StartRanks, y, f)
  {
    StartFenFields();
    StartRanksSplit();
    StartRanksWellFormed(StartRanks);
    assert ' ' in fen;
    FromFenPlacement(fen);
  }

  /** The back ranks of a board that lays out ranks with the start
      position's back ranks. */
  lemma StartBackSquares(ranks: seq<string>, b: Board)
    requires forall y, f :: 0 <= y < 8 && 0 <= f < 8 ==> b.squares[y * 8 + f] == FenSquare(ranks, y, f)
    requires forall f :: 0 <= f < 8 ==> FenSquare(ranks, 0, f) == White | BackRank[f]
    requires forall f :: 0 <= f < 8 ==> FenSquare(ranks, 7, f) == Black | BackRank[f]
    ensures forall i :: 0 <= i < 8 ==> b.squares[i] == White | BackRank[i]
    ensures forall i :: 56 <= i < 64 ==> b.squares[i] == Black | BackRank[i - 56]
    ensures b.squares[4] == White | King && b.squares[60] == Black | King
  {
    forall i | 0 <= i < 8
      ensures b.squares[i] == White | BackRank[i]
    {
      assert b.squares[0 * 8 + i] == FenSquare(ranks, 0, i);
    }
    forall i | 56 <= i < 64
      ensures b.squares[i] == Black | BackRank[i - 56]
    {
      assert b.squares[7 * 8 + (i - 56)] == FenSquare(ranks, 7, i - 56);
    }
    assert b.squares[4] == White | BackRank[4];
    assert b.squares[60] == Black | BackRank[60 - 56];
  }

  /** The pawn ranks and the middle of a board that lays out ranks with the
      start position's pawns and empty middle. */
  lemma StartPawnSquares(ranks: seq<string>, b: Board)
    requires forall y, f :: 0 <= y < 8 && 0 <= f < 8 ==> b.squares[y * 8 + f] == FenSquare(ranks, y, f)
    requires forall f :: 0 <= f < 8 ==> FenSquare(ranks, 1, f) == White | Pawn
    requires forall f :: 0 <= f < 8 ==> FenSquare(ranks, 6, f) == Black | Pawn
    requires forall y, f :: 2 <= y < 6 && 0 <= f < 8 ==> FenSquare(ranks, y, f) == 0
    ensures forall i :: 8 <= i < 16 ==> b.squares[i] == White | Pawn
    ensures forall i :: 48 <= i < 56 ==> b.squares[i] == Black | Pawn
    ensures forall i :: 16 <= i < 48 ==> b.squares[i] == 0
  {
    forall i | 8 <= i < 16
      ensures b.squares[i] == White | Pawn
    {
      assert b.squares[1 * 8 + (i - 8)] == FenSquare(ranks, 1, i - 8);
    }
    forall i | 48 <= i < 56
      ensures b.squares[i] == Black | Pawn
    {
      assert b.squares[6 * 8 + (i - 48)] == FenSquare(ranks, 6, i - 48);
    }
    forall i | 16 <= i < 48
      ensures b.squares[i] == 0
    {
      assert i == (i / 8) * 8 + i % 8;
      assert b.squares[(i / 8) * 8 + i % 8] == FenSquare(ranks, i / 8, i % 8);
    }
  }

  /** The standard start position as FromFEN reads it: lower-case letters are
      White and come first, so White's pieces stand on squares 0..15 and
      Black's on 48..63, and the pawn moves of Tests/Square/Pawn.cs apply. */
  lemma StartPosition(fen: string)
    requires fen == StartFen
    ensures FromFen(fen).Success?
    ensures var b := FromFen(fen).value;
            && b.whiteToMove
            && (forall i :: 0 <= i < 8 ==> b.squares[i] == White | BackRank[i])
            && (forall i :: 56 <= i < 64 ==> b.squares[i] == Black | BackRank[i - 56])
            && b.squares[4] == White | King && b.squares[60] == Black | King
            && (forall i :: 8 <= i < 16 ==> b.squares[i] == White | Pawn)
            && (forall i :: 48 <= i < 56 ==> b.squares[i] == Black | Pawn)
            && (forall i :: 16 <= i < 48 ==> b.squares[i] == 0)
    ensures ApplyMove(FromFen(fen).value, 9, 17).Success?
    ensures ApplyMove(FromFen(fen).value, 9, 17).value.applied
    ensures ApplyMove(FromFen(fen).value, 9, 25).value.applied
  {
    StartBoard(fen);
    var b := FromFen(fen).value;
    StartLayout(StartRanks, b);
    PawnAdvances(b);
  }

  /** A board that lays out the start position's ranks. */
  lemma StartLayout(ranks: seq<string>, b: Board)
    requires ranks == StartRanks
    requires forall y, f :: 0 <= y < 8 && 0 <= f < 8 ==> b.squares[y * 8 + f] == FenSquare(ranks, y, f)
    ensures forall i :: 0 <= i < 8 ==> b.squares[i] == White | BackRank[i]
    ensures forall i :: 56 <= i < 64 ==> b.squares[i] == Black | BackRank[i - 56]
    ensures b.squares[4] == White | King && b.squares[60] == Black | King
    ensures forall i :: 8 <= i < 16 ==> b.squares[i] == White | Pawn
    ensures forall i :: 48 <= i < 56 ==> b.squares[i] == Black | Pawn
    ensures forall i :: 16 <= i < 48 ==> b.squares[i] == 0
  {
    StartBackRanks(ranks);
    StartPawns(ranks);
    StartMiddleEmpty(ranks);
    StartBackSquares(ranks, b);
    StartPawnSquares(ranks, b);
  }

  /** A White pawn on square 9 with squares 17 and 25 empty may move one or two rows. */
  lemma PawnAdvances(b: Board)
    requires b.squares[9] == White | Pawn && b.squares[17] == 0 && b.squares[25] == 0
    ensures ApplyMove(b, 9, 17).Success? && ApplyMove(b, 9, 17).value.applied
    ensures ApplyMove(b, 9, 25).Success? && ApplyMove(b, 9, 25).value.applied
  {
  }
}

=== FILE: moves.dfy ===
/** The immutable move value of Chessagon.Common/Move.cs. */
module Moves {
  import opened Pieces

  datatype Move = Move(from: int, to: int, castle: bool, captured: Piece)

  /** The Move constructor: stores its arguments, castle defaulting to false
      and the captured piece to the empty piece. */
  function NewMove(from: int, to: int, castle: bool := false, captured: Piece := 0): (m: Move)
    ensures m.from == from && m.to == to
    ensures m.castle == castle && m.captured == captured
  {
    Move(from, to, castle, captured)
  }

  /** IEquatable<Move>.Equals: endpoints and castle flag, never the captured piece. */
  function Equals(m: Move, other: Move): (r: bool)
    ensures r <==> m.(captured := 0) == other.(captured := 0)
  {
    m.from == other.from && m.to == other.to && m.castle == other.castle
  }

  /** Equals is reflexive, symmetric and transitive. */
  lemma EqualsIsEquivalence(a: Move, b: Move, c: Move)
    ensures Equals(a, a)
    ensures Equals(a, b) <==> Equals(b, a)
    ensures Equals(a, b) && Equals(b, c) ==> Equals(a, c)
  {
  }

  /** Moves differing only in their captured piece are equal; moves that
      differ in the castle flag are not, whatever their endpoints. */
  lemma EqualsIgnoresCaptured(m: Move, captured: Piece)
    ensures Equals(m, m.(captured := captured))
    ensures !Equals(m, m.(castle := !m.castle))
  {
  }

  /** A move built with the defaults equals every move with the same endpoints
      and no castle flag, whatever it captured. */
  lemma NewMoveDefaults(from: int, to: int, captured: Piece)
    ensures NewMove(from, to) == Move(from, to, false, 0)
    ensures Equals(NewMove(from, to), NewMove(from, to, false, captured))
    ensures !Equals(NewMove(from, to), NewMove(from, to, true))
  {
  }
}

=== FILE: pieces.dfy ===
/** The piece flag algebra of Chessagon.Common/Enums.cs: a piece is a set of
    flag bits, six for the kind and two for the colour; 0 is the empty square. */
module Pieces {
  import opened Wrappers
  import opened Ascii

  /** The C# enum is int-backed, but only its eight flags are ever combined. */
  type Piece = bv8

  const Pawn: Piece := 1
  const Bishop: Piece := 2
  const Knight: Piece := 4
  const Rook: Piece := 8
  const Queen: Piece := 16
  const King: Piece := 32
  const Black: Piece := 64
  const White: Piece := 128

  const ColorMask: Piece := Black | White
  const KindMask: Piece := Pawn | Bishop | Knight | Rook | Queen | King

  /** The kind flags, in the order ToChar tests them. */
  const Kinds: seq<Piece> := [Pawn, Bishop, Knight, Rook, Queen, King]
  const Colours: seq<Piece> := [Black, White]

  /** The six FEN piece letters, lower case. */
  const PieceLetters: string := "prnbqk"

  /** Enum.HasFlag: every bit of `flag` is set in `p`. */
  predicate HasFlag(p: Piece, flag: Piece) {
    p & flag == flag
  }

  /** A well-formed occupied square: exactly one kind bit and one colour bit. */
  predicate IsPiece(p: Piece) {
    (p & KindMask) in Kinds && (p & ColorMask) in Colours
  }

  /** `self` and `other` carry the same colour flags; kind flags are ignored. */
  function HasColor(self: Piece, other: Piece): (r: bool)
    ensures r <==> ((HasFlag(self, Black) <==> HasFlag(other, Black))
                    && (HasFlag(self, White) <==> HasFlag(other, White)))
  {
    self & ColorMask == other & ColorMask
  }

  /** The kind flag named by a lower-case FEN letter, or 0 for any other character. */
  function KindOfLetter(lower: char): (k: Piece)
    ensures k != 0 <==> lower in PieceLetters
    ensures k != 0 ==> k in Kinds
  {
    match lower
    case 'p' => Pawn
    case 'r' => Rook
    case 'n' => Knight
    case 'b' => Bishop
    case 'q' => Queen
    case 'k' => King
    case _ => 0
  }

  /** PieceExtensions.CharToPiece: lower-case letters are Black, upper-case White. */
  function CharToPiece(c: char): (p: Piece)
    ensures p != 0 <==> ToLower(c) in PieceLetters
    ensures p != 0 ==> IsPiece(p)
    ensures p != 0 ==> p & KindMask == KindOfLetter(ToLower(c))
    ensures p != 0 ==> (p & ColorMask == Black <==> IsLower(c))
    ensures p != 0 ==> (p & ColorMask == White <==> IsUpper(c))
  {
    var colour := if ToLower(c) == c then Black else White;
    var kind := KindOfLetter(ToLower(c));
    if kind == 0 then 0 else kind | colour
  }

  /** `k` is the highest kind flag of `piece`, or Pawn when it has none. */
  predicate HighestKind(piece: Piece, k: Piece) {
    && k in Kinds
    && (k == Pawn || HasFlag(piece, k))
    && forall k' :: k' in Kinds && k' > k ==> piece & k' == 0
  }

  /** The upper-case letter ToChar starts from: each kind flag present, tested
      from Pawn up to King, overwrites the letter chosen so far. */
  function KindLetter(piece: Piece): (v: char)
    ensures IsUpper(v) && ToLower(v) in PieceLetters
    ensures HighestKind(piece, KindOfLetter(ToLower(v)))
  {
    var v := 'P';
    var v := if HasFlag(piece, Bishop) then 'B' else v;
    var v := if HasFlag(piece, Knight) then 'N' else v;
    var v := if HasFlag(piece, Rook) then 'R' else v;
    var v := if HasFlag(piece, Queen) then 'Q' else v;
    var v := if HasFlag(piece, King) then 'K' else v;
    HighestKindCases(piece);
    v
  }

  /** HighestKind by the first flag present, from King down. */
  lemma HighestKindCases(piece: Piece)
    ensures HasFlag(piece, King) ==> HighestKind(piece, King)
    ensures !HasFlag(piece, King) && HasFlag(piece, Queen) ==> HighestKind(piece, Queen)
    ensures piece & (King | Queen) == 0 && HasFlag(piece, Rook) ==> HighestKind(piece, Rook)
    ensures piece & (King | Queen | Rook) == 0 && HasFlag(piece, Knight) ==> HighestKind(piece, Knight)
    ensures piece & (King | Queen | Rook | Knight) == 0 && HasFlag(piece, Bishop) ==> HighestKind(piece, Bishop)
    ensures piece & (King | Queen | Rook | Knight | Bishop) == 0 ==> HighestKind(piece, Pawn)
  {
  }

  /** PieceExtensions.ToChar: the FEN letter of the highest kind flag present
      (Pawn when there is none), lower case exactly when the colour is Black. */
  function ToChar(piece: Piece): (r: Result<char>)
    ensures piece == 0 ==> r == Failure(PieceIsEmpty)
    ensures piece == Black || piece == White ==> r == Failure(PieceIsOnlyColour)
    ensures r.Success? <==> piece != 0 && piece != Black && piece != White
    ensures r.Success? ==> ToLower(r.value) in PieceLetters
    ensures r.Success? ==> (IsLower(r.value) <==> piece & ColorMask == Black)
    ensures r.Success? ==> IsLower(r.value) || IsUpper(r.value)
    ensures r.Success? ==> HighestKind(piece, KindOfLetter(ToLower(r.value)))
  {
    if piece == 0 then Failure(PieceIsEmpty)
    else if piece == Black || piece == White then Failure(PieceIsOnlyColour)
    else
      var v := KindLetter(piece);
      Success(if HasColor(piece, Black) then ToLower(v) else v)
  }

  /** PieceExtensions.OppositeColor: White for a Black-flagged piece, otherwise
      Black for a White-flagged piece; a colourless piece is an error. */
  function OppositeColor(piece: Piece): (r: Result<Piece>)
    ensures r.Failure? <==> piece & ColorMask == 0
    ensures r.Failure? ==> r.error == PieceHasNoColour
    ensures r.Success? ==> r.value in Colours
    ensures r.Success? ==> (r.value == White <==> piece & Black != 0)
  {
    if HasFlag(piece, Black) then Success(White)
    else if HasFlag(piece, White) then Success(Black)
    else Failure(PieceHasNoColour)
  }

  /** PieceExtensions.IsSliding: the piece carries a Rook, Bishop or Queen flag. */
  function IsSliding(piece: Piece): (r: bool)
    ensures r <==> piece & (Rook | Bishop | Queen) != 0
  {
    HasFlag(piece, Rook) || HasFlag(piece, Bishop) || HasFlag(piece, Queen)
  }

  /** HasColor is an equivalence relation on pieces. */
  lemma HasColorIsEquivalence(a: Piece, b: Piece, c: Piece)
    ensures HasColor(a, a)
    ensures HasColor(a, b) <==> HasColor(b, a)
    ensures HasColor(a, b) && HasColor(b, c) ==> HasColor(a, c)
  {
  }

  /** Adding or removing kind flags on either side never changes HasColor. */
  lemma HasColorIgnoresKind(a: Piece, b: Piece, ka: Piece, kb: Piece)
    requires ka & ColorMask == 0 && kb & ColorMask == 0
    ensures HasColor(a | ka, b | kb) <==> HasColor(a, b)
    ensures HasColor(a, b) <==> HasColor(a & ColorMask, b & ColorMask)
  {
  }

  /** The White bishop against the colours of Tests/TestHasColor.cs. */
  lemma HasColorExamples()
    ensures HasColor(White | Bishop, White | Pawn)
    ensures HasColor(White | Bishop, White | Bishop)
    ensures HasColor(White | Bishop, White)
    ensures !HasColor(White | Bishop, Black | Pawn)
    ensures !HasColor(White | Bishop, Black | Bishop)
    ensures !HasColor(White | Bishop, Black)
    ensures !HasColor(White | Bishop, 0)
  {
  }

  /** Every FEN piece letter survives CharToPiece followed by ToChar. */
  lemma LetterRoundTrip(c: char)
    requires ToLower(c) in PieceLetters
    ensures ToChar(CharToPiece(c)) == Success(c)
  {
    var l := ToLower(c);
    var r := ToChar(CharToPiece(c)).value;
    assert KindOfLetter(ToLower(r)) == KindOfLetter(l);
    KindOfLetterInjective(ToLower(r), l);
  }

  lemma KindOfLetterInjective(a: char, b: char)
    requires a in PieceLetters && b in PieceLetters
    requires KindOfLetter(a) == KindOfLetter(b)
    ensures a == b
  {
  }

  /** Every well-formed piece survives ToChar followed by CharToPiece. */
  lemma PieceRoundTrip(p: Piece)
    requires IsPiece(p)
    ensures ToChar(p).Success?
    ensures CharToPiece(ToChar(p).value) == p
  {
  }

  /** On a piece of one colour, OppositeColor yields the other colour, and
      applying it twice gives back the piece's own colour flags. */
  lemma OppositeColorInvolution(p: Piece)
    requires p & ColorMask in Colours
    ensures OppositeColor(p).Success?
    ensures !HasColor(OppositeColor(p).value, p)
    ensures OppositeColor(OppositeColor(p).value) == Success(p & ColorMask)
  {
  }

  /** A well-formed piece slides exactly when it is a bishop, rook or queen,
      whatever its colour. */
  lemma IsSlidingKinds(p: Piece)
    requires IsPiece(p)
    ensures IsSliding(p) <==> p & KindMask in [Bishop, Rook, Queen]
    ensures IsSliding(p) == IsSliding(p & KindMask)
  {
  }
}

=== FILE: wrappers.dfy ===
/** Failure-compatible wrappers shared by the model: an optional value, and the
    result of an operation that Chessagon's C# code can abort with an
    exception. */
module Wrappers {

  datatype Option<+T> = None | Some(value: T)

  /** The exceptions the modelled code can raise. */
  datatype Exception =
    | PieceIsEmpty        // ToChar on the empty piece 0
    | PieceIsOnlyColour   // ToChar on a bare colour flag
    | PieceHasNoColour    // OppositeColor on a piece without colour bits
    | IndexOutOfRange     // an array index outside the board or the FEN fields

  datatype Result<+T> = Success(value: T) | Failure(error: Exception) {
    predicate IsFailure() {
      Failure?
    }

    function PropagateFailure<U>(): Result<U>
      requires Failure?
    {
      Failure(error)
    }

    function Extract(): T
      requires Success?
    {
      value
    }
  }
}
